=== FILE: README.md ===
# Lithium command dispatch, modelled in Dafny

Lithium is a small framework for command-line apps. An app registers named
commands, each with an action and optional declared inputs. `start` then reads
the process arguments and picks the command they name. It turns the remaining
tokens into an argument object of `--key value` options plus a positional
`root`. It prompts for declared inputs that are still missing, and calls the
header hook, the action and the footer hook in that order.

This project models that engine as pure Dafny functions over immutable values,
and proves what each step computes:

- `JsValues` (values.dfy): the values an argument object holds and their
  JavaScript truthiness, `Array.prototype.join`, and the `"--"` prefix test.
- `Registry` (registry.dfy): command definitions, the initial `help` entry,
  `command`, `import` (drops entries named `help`), `export`, and the default
  help text.
- `Config` (config.dfy): the hook dictionary and `setConfig`'s shallow merge.
- `Prompts` (prompts.dfy): `ask`'s mapping from Lithium input types to prompt
  kinds. The missing `break` after `password` is kept, so a password input
  shows no prompt.
- `Platform` (platform.dfy): the host-platform table.
- `Matching` (matching.dfy): command resolution. `Resolve` is the reference:
  the last command in registration order that has any hit, with its longest
  matching prefix. `MatchCommand` is the source's nested loop, proved equal
  to `Resolve`.
- `Arguments` (arguments.dfy): argument extraction. `ParseFrom` is a forward
  scan. `WriteAt` says which property each token writes, and
  `ParseCharacterization` proves the object holds the last write of each key.
  `ExtractArguments` is the source's loop, which blanks each consumed value
  in place and looks up the next entry with `findIndex`; it is proved equal to
  the scan.
- `Lifecycle` (lifecycle.dfy): `start` as a trace of events (header, `ask`
  calls, action or help, footer, or the not-found hook alone). It also holds
  concrete dispatches of the scaffolding CLI's `new` command.

These are the inputs of `start`: the raw `process.argv`, `process.platform`,
the working directory (an opaque string), and the user's answers to prompts,
given as a sequence consumed in prompt order. When the answers run out, the
prompt counts as rejected and `start` stops there. Hooks and actions are
identified by opaque ids, not executed.

The model keeps these quirks of the code rather than the behaviour a reader
might expect:

- Resolution is last-hit-wins across commands, not first-registered-wins:
  lithium.js:237-249 keeps overwriting the match.
- A declared input is asked for when its value is falsy, not only when it is
  absent. `--root ""` still prompts; a bare `--root` (value `true`) does not.
- A `password` input renders no prompt and stores `undefined`. Its case
  picks the masked-input type, then falls through into `default`, which
  returns before any prompt is shown.
- `onHelp` is reached only through the `help` entry. The hook is documented
  for `something --help` (lithium.js:66), but `app --help` matches no command
  and runs the not-found hook, and `app cmd --help` passes `{help: true}` to
  `cmd`'s action.
- `import` always drops entries named `help`. There is no option to keep
  them.

## Model

| member | source | states |
|---|---|---|
| `Registry.Initial` | lithium.js:116-122 | a new app's registry is exactly one entry, named `help`, holding the built-in help action, described as "Shows a list of all commands", with no inputs |
| `Registry.Register` | lithium.js:145-148 | `command` appends exactly one entry with the given name, action, description and inputs, and leaves every earlier entry unchanged |
| `Registry.Export` | lithium.js:154-157 | `export` hands back the registry list as it stands, in registration order |
| `Registry.RegisterThenExport` | lithium.js:145-157 | registering then exporting hands back the earlier list followed by an entry identical to the one registered |
| `Registry.Importable` | lithium.js:165 | the kept entries are the given ones with every `help`-named entry dropped, each other entry kept as many times as it occurs |
| `Registry.Import` | lithium.js:163-166 | `import` keeps the registry as a prefix and appends exactly the importable entries of the file, in their order: every appended entry is from the file and not named `help`, and every such entry of the file is appended |
| `Registry.ImportableAppend` | lithium.js:165 | the filter commutes with concatenation, so kept entries stay in their given order |
| `Registry.ImportableKeepsNonHelp` | lithium.js:165 | a list without `help` entries is imported whole |
| `Registry.ImportExportedApp` | lithium.js:154-166 | importing another app's export appends all of that app's commands except its built-in help, in order |
| `Registry.BuildHelpText` | lithium.js:100-105 | the help loop's string is the in-order concatenation of `name: description\n` lines, with a missing description as empty |
| `Registry.HelpTextAppend` | lithium.js:101-105 | the help text of two concatenated lists is the concatenation of their help texts |
| `Registry.HelpTextOfRegister` | lithium.js:101-105 | registering a command adds exactly its line at the end of the help text |
| `Registry.InitialHelpText` | lithium.js:100-122 | a new app's help text is `help: Shows a list of all commands\n` |
| `Config.DefaultConfig` | lithium.js:96-111 | the initial configuration has exactly the four hook keys, all default |
| `Config.SetConfig` | lithium.js:130-136 | the merged configuration has the union of keys, the patch's hook for every patched key, and the old hook for every other key |
| `Config.SetConfigKeepsHooks` | lithium.js:132-135 | a merge never removes one of the four hooks the lifecycle calls |
| `Config.SetConfigIdempotent` | lithium.js:132-135 | applying the same patch twice equals applying it once |
| `Config.SetConfigCompose` | lithium.js:132-135 | two successive merges equal one merge with the patches combined, the later winning |
| `Config.SetConfigDisjointCommute` | lithium.js:132-135 | two patches that set different keys give the same configuration in either order |
| `Prompts.Ask` | lithium.js:175-199 | `string`→input, `number`→number, `boolean`→list with Yes↦true/No↦false, `choices`→list with the given options; no prompt exactly for the other types, `password` included |
| `Prompts.PasswordShowsNoPrompt` | lithium.js:195-198 | a password input renders no prompt, whatever its question and options |
| `Prompts.BooleanIgnoresOptions` | lithium.js:185-191 | a boolean prompt's choices do not depend on the options passed, and the first choice means `true` |
| `Prompts.ListPromptKinds` | lithium.js:185-194 | a list prompt is produced exactly for `boolean` and `choices` |
| `Platform.Classify` | lithium.js:278-299 | darwin→mac; aix, freebsd, linux, openbsd, sunos→linux; win32→windows; every other identifier→unknown; each as an if-and-only-if |
| `JsValues.OptionName` | lithium.js:258 | stripping the first two characters of an option token gives the name that `--` prefixes |
| `JsValues.JoinShowsSeparator` | lithium.js:240-241 | joining two or more tokens always puts the separator into the result |
| `Matching.LongestMatch` | lithium.js:238-248 | the result is a prefix length that spells the name with no longer prefix doing so, or none when no prefix spells it |
| `Matching.Resolve` | lithium.js:237-249 | the result is a hit, and every other hit comes earlier in registration order or is a shorter prefix of the same command; no result exactly when there is no hit |
| `Matching.MatchCommand` | lithium.js:235-249 | the nested loop matches iff `Resolve` finds a hit, records that hit's command, and leaves exactly the arguments after the matched prefix; no match leaves an empty remainder |
| `Matching.SingleWordName` | lithium.js:240-241 | a name without spaces is matched only by the first argument alone |
| `Matching.LaterRegistrationWins` | lithium.js:237-249 | if a later command has any hit, no earlier command is chosen, however long its match |
| `Matching.RegisterAndResolve` | lithium.js:237-249 | registering a command leaves the resolution unchanged when no argument prefix spells its name, and otherwise makes it the match with its longest such prefix |
| `Matching.NoArgumentsNoMatch` | lithium.js:239 | with no user arguments nothing matches |
| `Matching.LaterShorterNameWins` | lithium.js:237-249 | with `new project` registered before `new`, the arguments `new project` select `new` and leave `project` |
| `Arguments.ParseStep` | lithium.js:253-273 | one step of the scan moves past an option's value when there is one, lands on a token that is not a consumed value, and writes exactly what `WriteAt` says |
| `Arguments.ParseFromWrites` | lithium.js:252-275 | scanning from an unconsumed position keeps earlier properties, adds exactly the keys written later, and leaves each with its last write's value |
| `Arguments.ParseCharacterization` | lithium.js:252-275 | a key is in the argument object iff some token writes it, and its value is the one the last such token writes |
| `Arguments.OptionTakesValue` | lithium.js:259-266 | `--k v` with `v` not an option gives `k ↦ v` unless `k` is written again later, and `v` is never used as `root` |
| `Arguments.OptionWithoutValue` | lithium.js:260-269 | `--k` at the end or before another option gives `k ↦ true` unless written again later, and the next option is still processed |
| `Arguments.ParseKeysAndValues` | lithium.js:258-273 | every key is `root` or an option token without its dashes, and every value is a token's text or `true` |
| `Arguments.RootFromPositionals` | lithium.js:270-273 | without a `--root` option, `root` is present iff a positional token exists, and it is the last one; empty and consumed tokens are never positional |
| `Arguments.Slots` | lithium.js:243-245 | the remaining arguments become entries paired with their positions |
| `Arguments.FindIndex` | lithium.js:255-257 | the result is the first entry with the wanted index, or -1 when no entry has it; blanked entries have no index |
| `Arguments.ExtractArguments` | lithium.js:252-275 | the in-place loop, blanking consumed values, builds the same object as the reference scan |
| `Arguments.FlagBeforeFlag` | lithium.js:259-264 | `--force --env prod` gives `{force: true, env: "prod"}` |
| `Arguments.PositionalBecomesRoot` | lithium.js:270-273 | a lone `output.txt` gives `{root: "output.txt"}` |
| `Arguments.HelpFlagIsAnOption` | lithium.js:259-269 | after a command name, `--help` is an ordinary option giving `{help: true}` |
| `Lifecycle.UserArgs` | lithium.js:231-232 | the user arguments are `argv` without its first two entries, and empty when `argv` has fewer than two |
| `Lifecycle.FillInputs` | lithium.js:306-315 | truthy arguments are never overwritten; a completed fill records only `ask` calls, at most one per input; a rejected one ends with the rejection after `ask` calls |
| `Lifecycle.FillCountsPrompts` | lithium.js:306-315 | a fill is rejected only at the prompt shown after every answer has been used; a completed fill shows at most as many prompts as there are answers, and leaves exactly the unused ones |
| `Lifecycle.FillFrame` | lithium.js:306-315 | keys outside the declared option arguments are untouched, and a completed fill leaves a property under every declared key |
| `Lifecycle.FillAsksFalsyInputs` | lithium.js:306-315 | with distinct keys, a completed fill calls `ask` exactly for the inputs falsy beforehand, in order, with the prompt `ask` maps them to |
| `Lifecycle.ExpectedAsksIgnoresOtherKeys` | lithium.js:307 | storing under a key no remaining input uses does not change which of them are asked |
| `Lifecycle.FillStoresAnswers` | lithium.js:306-315 | with distinct keys and a completed fill, an input falsy beforehand ends with `undefined` when `ask` shows no prompt, and otherwise with the answer whose position is the number of prompts shown for the inputs before it |
| `Lifecycle.FillStoresFirstAnswer` | lithium.js:306-315 | with distinct keys and a completed fill, a falsy first input ends with `undefined` or the first answer |
| `Lifecycle.ActionEvent` | lithium.js:317-321 | the built-in help action is exactly the call of `onHelp` with the whole registry; a user action is exactly the call of that handler with the invocation |
| `Lifecycle.Dispatch` | lithium.js:302-323 | a matched dispatch starts with the header and never runs the not-found hook; it ends at a rejected prompt exactly when the fill is rejected, and then after only `ask` calls, with no action and no footer; otherwise come only `ask` calls, then the matched command's action on the filled arguments, working directory and OS family (or `onHelp` with the registry), then the footer |
| `Lifecycle.DispatchCompletes` | lithium.js:302-323 | when the fill completes, the dispatch is exactly the header, the fill's `ask` calls, the action on the filled arguments, and the footer |
| `Lifecycle.Start` | lithium.js:226-328 | no match gives exactly one not-found event; a match gives the header for the matched name first, then ends as `Dispatch` states: a rejection, exactly when the fill of the resolved command is rejected, after only `ask` calls; or the resolved command's action followed by the footer |
| `Lifecycle.StartInvocation` | lithium.js:306-321 | the action gets the working directory, the OS family, a property for every declared input, and every truthy extracted argument unchanged; with distinct keys, each input that was falsy holds `undefined` when `ask` shows no prompt, and otherwise the answer given to its prompt, counted among the prompts shown before it |
| `Lifecycle.StartAsksMissingInputs` | lithium.js:306-315 | between header and action, `start` asks, in declaration order, exactly for the inputs whose extracted value was falsy |
| `Lifecycle.StartHelp` | lithium.js:302-323 | `help` alone, with no other `help` entry registered, runs the header, then `onHelp` with the whole registry, then the footer, and asks nothing |
| `Lifecycle.HelpFlagIsNotFound` | lithium.js:237-249 | `--help` alone, with no entry named `--help`, matches nothing, so only the not-found hook runs |
| `Lifecycle.NoArgumentsIsNotFound` | lithium.js:324-327 | with no user arguments the trace is the not-found hook alone |
| `Lifecycle.NewWithRootFlag` | cli.js:5-32 | `new --root myapp` runs header, the action with `{root: "myapp"}`, then the footer, with no prompt |
| `Lifecycle.NewPromptsForRoot` | cli.js:24-31 | `new` alone prompts once, as a text prompt with the folder question, and the action gets the answer as `root` |
| `Lifecycle.UnknownCommandIsNotFound` | lithium.js:324-327 | an unregistered command runs only the not-found hook |
| `Lifecycle.NewWithEmptyRoot` | lithium.js:307 | `new --root ""` still prompts, since an empty value is falsy, and the answer replaces it |

## Left out

- `execute` and the `pwd` call: subprocess spawning and stream handling are I/O. The working directory is an input string.
- Prompt rendering and its promise plumbing belong to the prompt library. An answer is an entry of the `answers` sequence; running out of answers stands for a rejected prompt.
- The terminal helpers (`spinner`, `colour`, `box`, `logWithColour`, `errorWithColour`) wrap foreign libraries and the console.
- The console output of the default hooks: the help text is modelled (`HelpText`), its printing is not.
- `async`/`await`: execution is strictly sequential, so an ordered trace of events is the model.
- Headers, actions and footers that throw: they are modelled as always resolving. Prompt rejection is the only early exit modelled.
- JavaScript object details: keys such as `__proto__` or `toString`, which the prototype makes special, are treated as ordinary keys.
- Hooks and actions that change the app while `start` runs. The source reads `config` again before each hook call (lithium.js:304, 323) and hands `onHelp` the live command list (lithium.js:119), so a header or action that calls `setConfig`, `command` or `import` changes the later steps. The model reads the configuration and the registry once, when `start` is called.
- A `setConfig` patch that sets a hook to `undefined`: hooks are always present values.
- The aliasing of `export`, which returns the live array, so later registrations show through: the model returns the list as a value.
- Answers of numeric prompts are integers: fractional values and `NaN` are not modelled.
- A command name is always a string. An imported entry without one, which never matches, is not modelled.
- cli.js beyond its registration: cloning the starter repository and printing are I/O. Its registration is used only as the concrete `new` scenarios.
- docusaurus.config.js and src/components/HomepageFeatures.js: site configuration and UI, with no dispatch logic.
- Lifecycle.FillAsksFalsyInputs: stated only for inputs with distinct option arguments. With a repeated key, a falsy answer (such as a password input's `undefined`) makes the later input with that key ask again. `FillInputs` models that behaviour, but no lemma states it.
- Lifecycle.FillInputs: its own contract does not say what an asked key stores, or when a fill is rejected. `FillCountsPrompts` states when it is rejected. `FillStoresAnswers` states what is stored, for distinct option arguments only, for the reason above.
- Lifecycle.FillStoresAnswers: stated only for distinct option arguments and a fill that is not rejected. With a repeated key, a later input can overwrite an earlier answer, and no lemma states the value then.
- Lifecycle.StartInvocation: the stored answers are stated only for distinct option arguments, as in `FillStoresAnswers`.
- Lifecycle.StartAsksMissingInputs: stated only for distinct option arguments and a fill that is not rejected, for the reason above.

=== FILE: arguments.dfy ===
/** Argument extraction in `start`: the arguments left after the matched
    command name become a dictionary of `--key` options plus the positional
    `root`.

    `ParseFrom` is a forward scan that steps over an option and its value
    together; `WriteAt` says, position by position, which property each token
    writes; `ParseCharacterization` proves the scan keeps exactly the last
    write of every key; `ExtractArguments` is the source's loop, which blanks
    a consumed value in place, proved equal to the scan. */
module Arguments {
  import opened JsValues

  /** The key positional tokens are stored under. */
  const RootKey: string := "root"

  /** The forward scan from position `j`, with `m` the properties written so far. */
  function ParseFrom(ts: seq<string>, j: nat, m: ArgMap): ArgMap
    requires j <= |ts|
    decreases |ts| - j
  {
    if j == |ts| then m
    else if IsOption(ts[j]) then
      if j + 1 < |ts| && !IsOption(ts[j + 1]) then
        ParseFrom(ts, j + 2, m[OptionName(ts[j]) := Str(ts[j + 1])])
      else
        ParseFrom(ts, j + 1, m[OptionName(ts[j]) := Bool(true)])
    else if ts[j] != "" then ParseFrom(ts, j + 1, m[RootKey := Str(ts[j])])
    else ParseFrom(ts, j + 1, m)
  }

  /** The argument object built from the tokens after the command name. */
  function Parse(ts: seq<string>): ArgMap {
    ParseFrom(ts, 0, map[])
  }

  /** Token `j` is the value of the option just before it. Option tokens are
      never consumed, so this is decided by the two tokens alone. */
  predicate IsConsumed(ts: seq<string>, j: nat)
    requires j < |ts|
  {
    j > 0 && IsOption(ts[j - 1]) && !IsOption(ts[j])
  }

  /** Token `j` is a positional argument: not an option, not an option's
      value, and not the empty string. */
  predicate IsPositional(ts: seq<string>, j: nat) {
    j < |ts| && !IsOption(ts[j]) && !IsConsumed(ts, j) && ts[j] != ""
  }

  /** The value an option token at `j` receives. */
  function OptionValue(ts: seq<string>, j: nat): Value
    requires j < |ts|
  {
    if j + 1 < |ts| && !IsOption(ts[j + 1]) then Str(ts[j + 1]) else Bool(true)
  }

  /** The property written while the token at `j` is visited, if any. */
  function WriteAt(ts: seq<string>, j: nat): Option<(string, Value)>
    requires j < |ts|
  {
    if IsOption(ts[j]) then Some((OptionName(ts[j]), OptionValue(ts, j)))
    else if IsPositional(ts, j) then Some((RootKey, Str(ts[j])))
    else None
  }

  predicate Writes(ts: seq<string>, j: nat, k: string) {
    j < |ts| && WriteAt(ts, j).Some? && WriteAt(ts, j).value.0 == k
  }

  /** `j` is the last position that writes key `k`. */
  predicate LastWrite(ts: seq<string>, j: nat, k: string) {
    Writes(ts, j, k) && forall i: nat :: j < i < |ts| ==> !Writes(ts, i, k)
  }

  /** One step of the scan from position `j`: it moves to `next`, past the
      option's value when there is one, having written what `WriteAt` says. */
  lemma ParseStep(ts: seq<string>, j: nat, m: ArgMap) returns (next: nat, m': ArgMap)
    requires j < |ts| && !IsConsumed(ts, j)
    ensures j < next <= |ts| && (next == |ts| || !IsConsumed(ts, next))
    ensures ParseFrom(ts, j, m) == ParseFrom(ts, next, m')
    ensures forall i: nat :: j < i < next ==> WriteAt(ts, i).None?
    ensures WriteAt(ts, j).Some? ==> m' == m[WriteAt(ts, j).value.0 := WriteAt(ts, j).value.1]
    ensures WriteAt(ts, j).None? ==> m' == m
  {
    if IsOption(ts[j]) {
      if j + 1 < |ts| && !IsOption(ts[j + 1]) {
        assert IsConsumed(ts, j + 1) && WriteAt(ts, j + 1) == None;
        next, m' := j + 2, m[OptionName(ts[j]) := Str(ts[j + 1])];
      } else {
        next, m' := j + 1, m[OptionName(ts[j]) := Bool(true)];
      }
    } else if ts[j] != "" {
      next, m' := j + 1, m[RootKey := Str(ts[j])];
    } else {
      next, m' := j + 1, m;
    }
  }

  /** The scan from a position that is not a consumed value keeps the
      earlier properties, adds the keys written from there on, and leaves
      each written key with the value of its last write. */
  lemma {:induction false} ParseFromWrites(ts: seq<string>, j: nat, m: ArgMap, k: string)
    requires j <= |ts|
    requires j == |ts| || !IsConsumed(ts, j)
    ensures k in ParseFrom(ts, j, m) <==> k in m || exists i: nat :: j <= i < |ts| && Writes(ts, i, k)
    ensures forall i: nat :: j <= i < |ts| && LastWrite(ts, i, k) ==>
              ParseFrom(ts, j, m)[k] == WriteAt(ts, i).value.1
    ensures k in m && (forall i: nat :: j <= i < |ts| ==> !Writes(ts, i, k)) ==>
              ParseFrom(ts, j, m)[k] == m[k]
    decreases |ts| - j
  {
    if j == |ts| {
      return;
    }
    var next, m' := ParseStep(ts, j, m);
    assert forall i: nat :: j < i < next ==> !Writes(ts, i, k);
    ParseFromWrites(ts, next, m', k);
    if !Writes(ts, j, k) {
      assert k in m' <==> k in m;
      assert k in m ==> m'[k] == m[k];
    } else {
      assert k in m' && m'[k] == WriteAt(ts, j).value.1;
    }
    if exists i: nat :: j <= i < |ts| && Writes(ts, i, k) {
      var i: nat :| j <= i < |ts| && Writes(ts, i, k);
      if i < next {
        assert i == j;
        assert k in m';
      }
    }
  }

  /** The argument object holds exactly the keys some token writes, each
      with the value of the last token that writes it. */
  lemma ParseCharacterization(ts: seq<string>, k: string)
    ensures k in Parse(ts) <==> exists i: nat :: i < |ts| && Writes(ts, i, k)
    ensures forall i: nat :: LastWrite(ts, i, k) ==> Parse(ts)[k] == WriteAt(ts, i).value.1
  {
    ParseFromWrites(ts, 0, map[], k);
  }

  /** `--k v` with `v` not an option: `v` is the value of `k` unless a later
      token writes `k` again, and `v` is never taken as `root`. */
  lemma OptionTakesValue(ts: seq<string>, j: nat)
    requires j + 1 < |ts| && IsOption(ts[j]) && !IsOption(ts[j + 1])
    ensures WriteAt(ts, j + 1) == None
    ensures LastWrite(ts, j, OptionName(ts[j])) ==>
              OptionName(ts[j]) in Parse(ts) && Parse(ts)[OptionName(ts[j])] == Str(ts[j + 1])
  {
    ParseCharacterization(ts, OptionName(ts[j]));
  }

  /** `--k` at the end or before another option: `k` holds `true` unless
      written again later, and the option after it is still processed. */
  lemma OptionWithoutValue(ts: seq<string>, j: nat)
    requires j < |ts| && IsOption(ts[j])
    requires j + 1 == |ts| || IsOption(ts[j + 1])
    ensures LastWrite(ts, j, OptionName(ts[j])) ==>
              OptionName(ts[j]) in Parse(ts) && Parse(ts)[OptionName(ts[j])] == Bool(true)
    ensures j + 1 < |ts| ==> Writes(ts, j + 1, OptionName(ts[j + 1]))
  {
    ParseCharacterization(ts, OptionName(ts[j]));
  }

  /** Every key is `root` or the name of an option token; every value is a
      token's text or `true`. */
  lemma ParseKeysAndValues(ts: seq<string>, k: string)
    requires k in Parse(ts)
    ensures k == RootKey || exists i: nat :: i < |ts| && IsOption(ts[i]) && k == OptionName(ts[i])
    ensures Parse(ts)[k].Str? || Parse(ts)[k] == Bool(true)
  {
    ParseCharacterization(ts, k);
    var i: nat :| i < |ts| && Writes(ts, i, k);
    while exists i': nat :: i < i' < |ts| && Writes(ts, i', k)
      invariant i < |ts| && Writes(ts, i, k)
      decreases |ts| - i
    {
      var later: nat :| i < later < |ts| && Writes(ts, later, k);
      i := later;
    }
    assert LastWrite(ts, i, k);
  }

  /** Without a `--root` option, `root` is the last positional token, and
      it is absent exactly when there is none. Empty tokens are never
      positional. */
  lemma RootFromPositionals(ts: seq<string>, j: nat)
    requires forall i: nat :: i < |ts| && IsOption(ts[i]) ==> OptionName(ts[i]) != RootKey
    ensures RootKey in Parse(ts) <==> exists i: nat :: IsPositional(ts, i)
    ensures IsPositional(ts, j) && (forall i: nat :: j < i ==> !IsPositional(ts, i)) ==>
              RootKey in Parse(ts) && Parse(ts)[RootKey] == Str(ts[j])
  {
    ParseCharacterization(ts, RootKey);
    assert forall i: nat :: Writes(ts, i, RootKey) <==> IsPositional(ts, i);
  }

  // The source's own loop, on `{arg, index}` entries.

  /** An element of `commandArguments`: a token with its position, or the
      empty object `{}` a consumed value is replaced by. */
  datatype Slot = Entry(arg: string, index: nat) | Blank

  /** `a?.arg ?? ""`. */
  function ArgText(a: Slot): string {
    match a
    case Entry(arg, _) => arg
    case Blank => ""
  }

  /** The slot is an entry at position `target`; `{}` has no index. */
  predicate HasIndex(a: Slot, target: nat) {
    a.Entry? && a.index == target
  }

  /** `args.slice(i + 1).map((arg, index) => ({ arg, index }))`. */
  function Slots(ts: seq<string>): (s: seq<Slot>)
    ensures |s| == |ts|
    ensures forall k :: 0 <= k < |ts| ==> s[k] == Entry(ts[k], k)
  {
    seq(|ts|, k requires 0 <= k < |ts| => Entry(ts[k], k))
  }

  /** `findIndex(p => p.index == target)`: the first such slot, or -1. */
  function FindIndex(slots: seq<Slot>, target: nat): (r: int)
    ensures -1 <= r < |slots|
    ensures r >= 0 ==> HasIndex(slots[r], target)
    ensures r >= 0 ==> forall k :: 0 <= k < r ==> !HasIndex(slots[k], target)
    ensures r == -1 ==> forall k :: 0 <= k < |slots| ==> !HasIndex(slots[k], target)
  {
    if |slots| == 0 then -1
    else if HasIndex(slots[0], target) then 0
    else
      var r := FindIndex(slots[1..], target);
      if r == -1 then -1 else r + 1
  }

  /** The extraction loop as written: visits each slot in order, and for an
      option whose next slot holds a non-option value, stores the value and
      blanks that slot so the visit to it does nothing. */
  method ExtractArguments(ts: seq<string>) returns (args: ArgMap)
    ensures args == Parse(ts)
  {
    var slots := Slots(ts);
    args := map[];
    var j := 0;
    while j < |slots|
      invariant |slots| == |ts| && 0 <= j <= |ts|
      invariant forall k :: 0 <= k < |ts| ==> slots[k] == Entry(ts[k], k) || (slots[k] == Blank && k <= j)
      invariant j < |ts| && slots[j] == Blank ==> IsConsumed(ts, j)
      invariant Parse(ts) == if j < |ts| && slots[j] == Blank then ParseFrom(ts, j + 1, args)
                             else ParseFrom(ts, j, args)
    {
      var a := slots[j];
      if IsOption(ArgText(a)) {
        var i := FindIndex(slots, a.index + 1);
        assert i == if j + 1 < |ts| then j + 1 else -1;
        var name := OptionName(a.arg);
        if i >= 0 {
          var next := slots[i];
          if IsOption(next.arg) {
            args := args[name := Bool(true)];
          } else {
            args := args[name := Str(next.arg)];
            slots := slots[i := Blank];
          }
        } else {
          args := args[name := Bool(true)];
        }
      } else if ArgText(a) != "" {
        args := args[RootKey := Str(a.arg)];
      }
      j := j + 1;
    }
  }

  // Two concrete extractions.

  lemma FlagBeforeFlag()
    ensures Parse(["--force", "--env", "prod"]) == map["force" := Bool(true), "env" := Str("prod")]
  {
  }

  /** After a command name, `--help` is an ordinary option: the action
      receives `help: true`. */
  lemma HelpFlagIsAnOption()
    ensures Parse(["--help"]) == map["help" := Bool(true)]
  {
  }

  lemma PositionalBecomesRoot()
    ensures Parse(["output.txt"]) == map[RootKey := Str("output.txt")]
  {
  }
}

=== FILE: config.dfy ===
/** The app configuration: a dictionary of lifecycle hooks, replaced key by
    key by `setConfig`. */
module Config {

  /** A hook, identified rather than executed. `DefaultHook` under a key is
      the default behaviour for that key: a header and footer that do
      nothing, the help printer, and the "couldn't find that command"
      message. */
  datatype Hook = DefaultHook | UserHook(id: nat)

  /** The configuration object. Callers may put any key into it; only the
      four below are read. */
  type Config = map<string, Hook>

  const HeaderKey: string := "header"
  const FooterKey: string := "footer"
  const HelpKey: string := "onHelp"
  const NotFoundKey: string := "onCommandNotFound"

  /** The configuration has every hook the lifecycle calls. */
  predicate HasHooks(c: Config) {
    HeaderKey in c && FooterKey in c && HelpKey in c && NotFoundKey in c
  }

  /** The configuration an app starts with. */
  function DefaultConfig(): (c: Config)
    ensures HasHooks(c)
    ensures forall k :: k in c ==> c[k] == DefaultHook
    ensures c.Keys == {HeaderKey, FooterKey, HelpKey, NotFoundKey}
  {
    map[NotFoundKey := DefaultHook, HelpKey := DefaultHook,
        HeaderKey := DefaultHook, FooterKey := DefaultHook]
  }

  /** `setConfig(patch)`: `{...config, ...patch}`. */
  function SetConfig(c: Config, patch: Config): (r: Config)
    ensures r.Keys == c.Keys + patch.Keys
    ensures forall k :: k in patch ==> r[k] == patch[k]
    ensures forall k :: k in c && k !in patch ==> r[k] == c[k]
  {
    c + patch
  }

  /** A merge never loses a hook. */
  lemma SetConfigKeepsHooks(c: Config, patch: Config)
    requires HasHooks(c)
    ensures HasHooks(SetConfig(c, patch))
  {
  }

  /** Applying the same patch twice is the same as applying it once. */
  lemma SetConfigIdempotent(c: Config, patch: Config)
    ensures SetConfig(SetConfig(c, patch), patch) == SetConfig(c, patch)
  {
  }

  /** Two successive merges are one merge with the later patch winning. */
  lemma SetConfigCompose(c: Config, p: Config, q: Config)
    ensures SetConfig(SetConfig(c, p), q) == SetConfig(c, SetConfig(p, q))
  {
  }

  /** Two patches that set different keys can be applied in either order. */
  lemma SetConfigDisjointCommute(c: Config, p: Config, q: Config)
    requires p.Keys !! q.Keys
    ensures SetConfig(SetConfig(c, p), q) == SetConfig(SetConfig(c, q), p)
  {
  }
}

=== FILE: lifecycle.dfy ===
/** `app.start()`: one dispatch of a Lithium app, as the sequence of hook,
    prompt and action calls it makes.

    The working directory, the raw argument vector, the host platform and the
    user's answers to prompts come in as an `Env`; hooks and actions are
    recorded as events rather than run. */
module Lifecycle {
  import opened JsValues
  import opened Registry
  import opened Config
  import opened Prompts
  import opened Platform
  import opened Matching
  import opened Arguments

  /** What the process supplies: `process.argv`, `process.platform`, the
      output of `pwd`, and the answers the user gives, in the order the
      prompts appear. */
  datatype Env = Env(argv: seq<string>, platform: string, cwd: string, answers: seq<Value>)

  /** The object a command's action receives. */
  datatype Invocation = Invocation(args: ArgMap, currentWorkingDirectory: string, os: Os)

  datatype Event =
    | HeaderRan(hook: Hook, command: string)
    /** `ask` was called for the input; `prompt` is what was shown, if anything. */
    | Asked(input: Input, prompt: Option<Prompt>)
    /** The prompt library rejected (no answer came): `start` stops here. */
    | PromptRejected(input: Input)
    | ActionRan(handler: Handler, invocation: Invocation)
    /** The built-in help action: `onHelp` receives the whole registry. */
    | HelpRan(hook: Hook, commands: seq<Command>)
    | FooterRan(hook: Hook, command: string)
    | NotFoundRan(hook: Hook)

  /** `const [nodeEnv, binEnv, ...args] = process.argv`. */
  function UserArgs(argv: seq<string>): (args: seq<string>)
    ensures |argv| >= 2 ==> argv == argv[..2] + args
    ensures |argv| < 2 ==> args == []
  {
    if |argv| >= 2 then argv[2..] else []
  }

  /** `commandMatched.inputs ?? []`. */
  function DeclaredInputs(c: Command): seq<Input> {
    match c.inputs
    case Some(inputs) => inputs
    case None => []
  }

  /** The outcome of the input-completion loop. */
  datatype Fill = Fill(args: ArgMap, events: seq<Event>, answersLeft: seq<Value>, rejected: bool)

  /** The option arguments of a list of inputs. */
  function Keys(inputs: seq<Input>): set<string> {
    set i | i in inputs :: i.optionArgument
  }

  /** The events of a fill that completed are all `ask` calls. */
  predicate AllAsked(events: seq<Event>) {
    forall e :: e in events ==> e.Asked?
  }

  /** Asks, in declaration order, for every input whose current value is
      falsy, and stores what `ask` resolves to (`undefined` when no prompt
      was shown). An exhausted answer stream rejects the prompt. */
  function FillInputs(inputs: seq<Input>, args: ArgMap, answers: seq<Value>): (f: Fill)
    ensures forall k :: k in args && Truthy(args[k]) ==> k in f.args && f.args[k] == args[k]
    ensures !f.rejected ==> AllAsked(f.events) && |f.events| <= |inputs|
    ensures f.rejected ==> |f.events| >= 2 && AllAsked(f.events[..|f.events| - 1]) &&
                           f.events[|f.events| - 1].PromptRejected?
    ensures |f.answersLeft| <= |answers|
    ensures forall e :: e in f.events ==> e.Asked? || e.PromptRejected?
    decreases |inputs|
  {
    if |inputs| == 0 then Fill(args, [], answers, false)
    else
      var input := inputs[0];
      var key := input.optionArgument;
      if Truthy(Lookup(args, key)) then
        FillInputs(inputs[1..], args, answers)
      else
        match Ask(input.question, input.kind, input.choices)
        case None =>
          var f := FillInputs(inputs[1..], args[key := Undefined], answers);
          f.(events := [Asked(input, None)] + f.events)
        case Some(p) =>
          if |answers| == 0 then
            Fill(args, [Asked(input, Some(p)), PromptRejected(input)], [], true)
          else
            var f := FillInputs(inputs[1..], args[key := answers[0]], answers[1..]);
            assert f.rejected ==> ([Asked(input, Some(p))] + f.events)[..|f.events|] ==
                                  [Asked(input, Some(p))] + f.events[..|f.events| - 1];
            f.(events := [Asked(input, Some(p))] + f.events)
  }

  /** A fill is rejected only once every answer has been used: the prompt
      that rejects is the one shown after the last answer. A completed fill
      shows at most as many prompts as there are answers and leaves exactly
      the unused ones. */
  lemma {:induction false} FillCountsPrompts(inputs: seq<Input>, args: ArgMap, answers: seq<Value>)
    ensures var f := FillInputs(inputs, args, answers);
            f.rejected ==> PromptCount(f.events) == |answers| + 1
    ensures var f := FillInputs(inputs, args, answers);
            !f.rejected ==> PromptCount(f.events) <= |answers| &&
                            f.answersLeft == answers[PromptCount(f.events)..]
    decreases |inputs|
  {
    if |inputs| > 0 {
      var input := inputs[0];
      var key := input.optionArgument;
      if Truthy(Lookup(args, key)) {
        FillCountsPrompts(inputs[1..], args, answers);
      } else {
        match Ask(input.question, input.kind, input.choices)
        case None =>
          var f := FillInputs(inputs[1..], args[key := Undefined], answers);
          FillCountsPrompts(inputs[1..], args[key := Undefined], answers);
          assert ([Asked(input, None)] + f.events)[1..] == f.events;
        case Some(p) =>
          if |answers| == 0 {
            var events := [Asked(input, Some(p)), PromptRejected(input)];
            assert events[1..] == [PromptRejected(input)] && events[1..][1..] == [];
          } else {
            var f := FillInputs(inputs[1..], args[key := answers[0]], answers[1..]);
            FillCountsPrompts(inputs[1..], args[key := answers[0]], answers[1..]);
            assert ([Asked(input, Some(p))] + f.events)[1..] == f.events;
          }
      }
    }
  }

  /** The fill touches no key outside the inputs' option arguments, and a
      completed fill leaves a property under each of them. */
  lemma {:induction false} FillFrame(inputs: seq<Input>, args: ArgMap, answers: seq<Value>, k: string)
    ensures var f := FillInputs(inputs, args, answers);
            k !in Keys(inputs) ==> (k in f.args <==> k in args) && (k in args ==> f.args[k] == args[k])
    ensures var f := FillInputs(inputs, args, answers);
            !f.rejected && k in Keys(inputs) ==> k in f.args
    decreases |inputs|
  {
    if |inputs| > 0 {
      var input := inputs[0];
      var key := input.optionArgument;
      assert Keys(inputs) == {key} + Keys(inputs[1..]);
      if Truthy(Lookup(args, key)) {
        FillFrame(inputs[1..], args, answers, k);
      } else if Ask(input.question, input.kind, input.choices).None? {
        FillFrame(inputs[1..], args[key := Undefined], answers, k);
      } else if |answers| > 0 {
        FillFrame(inputs[1..], args[key := answers[0]], answers[1..], k);
      }
    }
  }

  /** The `ask` calls expected for `inputs` against the argument object as
      it was before any answer came in. */
  function ExpectedAsks(inputs: seq<Input>, args: ArgMap): seq<Event> {
    if |inputs| == 0 then []
    else if Truthy(Lookup(args, inputs[0].optionArgument)) then ExpectedAsks(inputs[1..], args)
    else [Asked(inputs[0], Ask(inputs[0].question, inputs[0].kind, inputs[0].choices))]
         + ExpectedAsks(inputs[1..], args)
  }

  predicate DistinctKeys(inputs: seq<Input>) {
    forall i, j :: 0 <= i < j < |inputs| ==> inputs[i].optionArgument != inputs[j].optionArgument
  }

  /** When the inputs store under different keys, a completed fill asks
      exactly for the inputs that were falsy beforehand, in order: an answer
      never changes whether a later input is asked. */
  lemma {:induction false} FillAsksFalsyInputs(inputs: seq<Input>, args: ArgMap, answers: seq<Value>)
    requires DistinctKeys(inputs)
    requires !FillInputs(inputs, args, answers).rejected
    ensures FillInputs(inputs, args, answers).events == ExpectedAsks(inputs, args)
    decreases |inputs|
  {
    if |inputs| > 0 {
      var input := inputs[0];
      var key := input.optionArgument;
      assert DistinctKeys(inputs[1..]);
      assert forall k :: k in Keys(inputs[1..]) ==> k != key;
      if Truthy(Lookup(args, key)) {
        FillAsksFalsyInputs(inputs[1..], args, answers);
      } else {
        var args' := if Ask(input.question, input.kind, input.choices).None? then args[key := Undefined]
                     else args[key := answers[0]];
        var answers' := if Ask(input.question, input.kind, input.choices).None? then answers
                        else answers[1..];
        FillAsksFalsyInputs(inputs[1..], args', answers');
        ExpectedAsksIgnoresOtherKeys(inputs[1..], args, key, args'[key]);
      }
    }
  }

  /** Storing under a key no input uses does not change what is asked. */
  lemma {:induction false} ExpectedAsksIgnoresOtherKeys(inputs: seq<Input>, args: ArgMap, key: string, v: Value)
    requires key !in Keys(inputs)
    ensures ExpectedAsks(inputs, args[key := v]) == ExpectedAsks(inputs, args)
    decreases |inputs|
  {
    if |inputs| > 0 {
      assert inputs[0] in inputs;
      assert Keys(inputs[1..]) <= Keys(inputs);
      ExpectedAsksIgnoresOtherKeys(inputs[1..], args, key, v);
    }
  }

  /** How many of the events showed a prompt, and so took an answer. */
  function PromptCount(events: seq<Event>): nat {
    if |events| == 0 then 0
    else (if events[0].Asked? && events[0].prompt.Some? then 1 else 0) + PromptCount(events[1..])
  }

  /** When the inputs store under different keys and the fill completes,
      an input that was falsy beforehand ends up holding `undefined` when
      `ask` shows no prompt for it, and otherwise the answer whose position
      is the number of prompts shown for the inputs before it. */
  lemma {:induction false} FillStoresAnswers(inputs: seq<Input>, args: ArgMap, answers: seq<Value>, n: nat)
    requires DistinctKeys(inputs)
    requires !FillInputs(inputs, args, answers).rejected
    requires n < |inputs| && !Truthy(Lookup(args, inputs[n].optionArgument))
    ensures var f := FillInputs(inputs, args, answers);
            var key := inputs[n].optionArgument;
            var before := PromptCount(ExpectedAsks(inputs[..n], args));
            && key in f.args
            && (Ask(inputs[n].question, inputs[n].kind, inputs[n].choices).None? ==> f.args[key] == Undefined)
            && (Ask(inputs[n].question, inputs[n].kind, inputs[n].choices).Some? ==>
                  before < |answers| && f.args[key] == answers[before])
    decreases n
  {
    var input := inputs[0];
    var k0 := input.optionArgument;
    var ask := Ask(input.question, input.kind, input.choices);
    assert DistinctKeys(inputs[1..]);
    if n == 0 {
      FillStoresFirstAnswer(inputs, args, answers);
      assert inputs[..0] == [];
    } else if Truthy(Lookup(args, k0)) {
      assert inputs[..n][1..] == inputs[1..][..n - 1];
      FillStoresAnswers(inputs[1..], args, answers, n - 1);
    } else {
      var prefix := inputs[1..][..n - 1];
      assert inputs[..n] == [input] + prefix;
      assert inputs[n].optionArgument != k0 by { assert inputs[n] == inputs[1..][n - 1]; }
      assert k0 !in Keys(prefix) by {
        forall i | i in prefix ensures i.optionArgument != k0 {
          assert i in inputs[1..];
        }
      }
      var args' := if ask.None? then args[k0 := Undefined] else args[k0 := answers[0]];
      var answers' := if ask.None? then answers else answers[1..];
      assert FillInputs(inputs, args, answers).args == FillInputs(inputs[1..], args', answers').args;
      FillStoresAnswers(inputs[1..], args', answers', n - 1);
      ExpectedAsksIgnoresOtherKeys(prefix, args, k0, args'[k0]);
      var e := Asked(input, ask);
      assert ExpectedAsks(inputs[..n], args) == [e] + ExpectedAsks(prefix, args);
      assert ([e] + ExpectedAsks(prefix, args))[1..] == ExpectedAsks(prefix, args);
    }
  }

  /** The first input of a completed fill, when falsy, holds `undefined`
      or the first answer, since no later input writes its key. */
  lemma FillStoresFirstAnswer(inputs: seq<Input>, args: ArgMap, answers: seq<Value>)
    requires DistinctKeys(inputs)
    requires !FillInputs(inputs, args, answers).rejected
    requires |inputs| > 0 && !Truthy(Lookup(args, inputs[0].optionArgument))
    ensures var f := FillInputs(inputs, args, answers);
            var key := inputs[0].optionArgument;
            && key in f.args
            && (Ask(inputs[0].question, inputs[0].kind, inputs[0].choices).None? ==> f.args[key] == Undefined)
            && (Ask(inputs[0].question, inputs[0].kind, inputs[0].choices).Some? ==>
                  0 < |answers| && f.args[key] == answers[0])
  {
    var k0 := inputs[0].optionArgument;
    assert k0 !in Keys(inputs[1..]) by {
      forall i | i in inputs[1..] ensures i.optionArgument != k0 {
        var j :| 0 <= j < |inputs[1..]| && inputs[1..][j] == i;
        assert inputs[j + 1] == i;
      }
    }
    if Ask(inputs[0].question, inputs[0].kind, inputs[0].choices).None? {
      FillFrame(inputs[1..], args[k0 := Undefined], answers, k0);
    } else {
      FillFrame(inputs[1..], args[k0 := answers[0]], answers[1..], k0);
    }
  }

  /** The call of the matched command's action: the built-in help action
      hands the whole registry to `onHelp`; any other action receives the
      invocation. */
  function ActionEvent(c: Command, inv: Invocation, reg: seq<Command>, config: Config): (e: Event)
    requires HasHooks(config)
    ensures c.action == ShowHelp <==> e == HelpRan(config[HelpKey], reg)
    ensures c.action.UserHandler? <==> e == ActionRan(c.action, inv)
  {
    match c.action
    case ShowHelp => HelpRan(config[HelpKey], reg)
    case UserHandler(_) => ActionRan(c.action, inv)
  }

  predicate IsActionEvent(e: Event) {
    e.ActionRan? || e.HelpRan?
  }

  /** The matched branch of `start`: header, the input-completion loop,
      the action and the footer; a rejected prompt ends it early. */
  function Dispatch(reg: seq<Command>, config: Config, c: Command, parsed: ArgMap, env: Env): (trace: seq<Event>)
    requires HasHooks(config)
    ensures |trace| >= 1 && trace[0] == HeaderRan(config[HeaderKey], c.name)
    ensures forall e :: e in trace ==> !e.NotFoundRan?
    ensures trace[|trace| - 1].PromptRejected? ||
            (|trace| >= 3 && trace[|trace| - 1] == FooterRan(config[FooterKey], c.name) &&
             AllAsked(trace[1..|trace| - 2]) &&
             trace[|trace| - 2] == ActionEvent(c, Invocation(FillInputs(DeclaredInputs(c), parsed, env.answers).args,
                                                             env.cwd, Classify(env.platform)), reg, config))
    ensures trace[|trace| - 1].PromptRejected? ==> |trace| >= 3 && AllAsked(trace[1..|trace| - 1])
    ensures trace[|trace| - 1].PromptRejected? <==> FillInputs(DeclaredInputs(c), parsed, env.answers).rejected
  {
    var f := FillInputs(DeclaredInputs(c), parsed, env.answers);
    var header := HeaderRan(config[HeaderKey], c.name);
    if f.rejected then
      Stopped(header, f.events)
    else
      var inv := Invocation(f.args, env.cwd, Classify(env.platform));
      Completed(header, f.events, ActionEvent(c, inv, reg, config), FooterRan(config[FooterKey], c.name))
  }

  /** A trace cut short: the header, then the fill's events up to its rejection. */
  function Stopped(header: Event, events: seq<Event>): (t: seq<Event>)
    requires header.HeaderRan?
    requires |events| >= 2 && AllAsked(events[..|events| - 1]) && events[|events| - 1].PromptRejected?
    ensures |t| >= 3 && t[0] == header && t[|t| - 1].PromptRejected?
    ensures AllAsked(t[1..|t| - 1])
    ensures forall e :: e in t ==> !e.NotFoundRan?
  {
    var t := [header] + events;
    assert t[1..|t| - 1] == events[..|events| - 1];
    assert forall e :: e in t ==> e == header || e in events[..|events| - 1] || e == events[|events| - 1];
    t
  }

  /** A trace that ran to the end: header, `ask` calls, action, footer. */
  function Completed(header: Event, asks: seq<Event>, action: Event, footer: Event): (t: seq<Event>)
    requires header.HeaderRan? && AllAsked(asks) && IsActionEvent(action) && footer.FooterRan?
    ensures |t| == |asks| + 3 && t[0] == header && t[|t| - 2] == action && t[|t| - 1] == footer
    ensures t[1..|t| - 2] == asks
    ensures forall e :: e in t ==> !e.NotFoundRan?
  {
    var t := [header] + asks + [action, footer];
    assert forall e :: e in t ==> e == header || e in asks || e == action || e == footer;
    t
  }

  /** `start`: the user arguments select a command, or the not-found hook
      runs alone. */
  function Start(reg: seq<Command>, config: Config, env: Env): (trace: seq<Event>)
    requires HasHooks(config)
    ensures |trace| >= 1
    ensures Resolve(reg, UserArgs(env.argv)).None? ==> trace == [NotFoundRan(config[NotFoundKey])]
    ensures Resolve(reg, UserArgs(env.argv)).Some? ==>
              var c := reg[Resolve(reg, UserArgs(env.argv)).value.cmd];
              && trace[0] == HeaderRan(config[HeaderKey], c.name)
              && (forall e :: e in trace ==> !e.NotFoundRan?)
              && (trace[|trace| - 1].PromptRejected? ||
                  (|trace| >= 3 && trace[|trace| - 1] == FooterRan(config[FooterKey], c.name) &&
                   IsActionEvent(trace[|trace| - 2]) && AllAsked(trace[1..|trace| - 2])))
              && (trace[|trace| - 1].PromptRejected? ==> |trace| >= 3 && AllAsked(trace[1..|trace| - 1]))
              && (trace[|trace| - 1].PromptRejected? <==>
                    FillInputs(DeclaredInputs(c), Parse(UserArgs(env.argv)[Resolve(reg, UserArgs(env.argv)).value.len..]),
                               env.answers).rejected)
    ensures Resolve(reg, UserArgs(env.argv)).Some? && !trace[|trace| - 1].PromptRejected? ==>
              var h := Resolve(reg, UserArgs(env.argv)).value;
              var f := FillInputs(DeclaredInputs(reg[h.cmd]), Parse(UserArgs(env.argv)[h.len..]), env.answers);
              trace[|trace| - 2] == ActionEvent(reg[h.cmd], Invocation(f.args, env.cwd, Classify(env.platform)), reg, config)
  {
    var args := UserArgs(env.argv);
    match Resolve(reg, args)
    case None => [NotFoundRan(config[NotFoundKey])]
    case Some(h) => Dispatch(reg, config, reg[h.cmd], Parse(args[h.len..]), env)
  }

  /** The invocation a user action receives: the extracted arguments with
      the missing inputs filled in, the working directory and the OS family.
      Arguments that were already truthy reach the action unchanged. */
  lemma StartInvocation(reg: seq<Command>, config: Config, env: Env)
    requires HasHooks(config)
    requires Resolve(reg, UserArgs(env.argv)).Some?
    requires var h := Resolve(reg, UserArgs(env.argv)).value;
             reg[h.cmd].action.UserHandler? &&
             !FillInputs(DeclaredInputs(reg[h.cmd]), Parse(UserArgs(env.argv)[h.len..]), env.answers).rejected
    ensures var h := Resolve(reg, UserArgs(env.argv)).value;
            var parsed := Parse(UserArgs(env.argv)[h.len..]);
            var trace := Start(reg, config, env);
            && |trace| >= 3
            && trace[|trace| - 2].ActionRan?
            && trace[|trace| - 2].handler == reg[h.cmd].action
            && trace[|trace| - 2].invocation.currentWorkingDirectory == env.cwd
            && trace[|trace| - 2].invocation.os == Classify(env.platform)
            && Keys(DeclaredInputs(reg[h.cmd])) <= trace[|trace| - 2].invocation.args.Keys
            && (forall k :: k in parsed && Truthy(parsed[k]) ==>
                  k in trace[|trace| - 2].invocation.args && trace[|trace| - 2].invocation.args[k] == parsed[k])
    ensures var h := Resolve(reg, UserArgs(env.argv)).value;
            var inputs := DeclaredInputs(reg[h.cmd]);
            var parsed := Parse(UserArgs(env.argv)[h.len..]);
            var got := Start(reg, config, env)[|Start(reg, config, env)| - 2].invocation.args;
            DistinctKeys(inputs) ==>
              forall n: nat :: n < |inputs| && !Truthy(Lookup(parsed, inputs[n].optionArgument)) ==>
                var key := inputs[n].optionArgument;
                var before := PromptCount(ExpectedAsks(inputs[..n], parsed));
                && key in got
                && (Ask(inputs[n].question, inputs[n].kind, inputs[n].choices).None? ==> got[key] == Undefined)
                && (Ask(inputs[n].question, inputs[n].kind, inputs[n].choices).Some? ==>
                      before < |env.answers| && got[key] == env.answers[before])
  {
    var h := Resolve(reg, UserArgs(env.argv)).value;
    var c := reg[h.cmd];
    var parsed := Parse(UserArgs(env.argv)[h.len..]);
    var f := FillInputs(DeclaredInputs(c), parsed, env.answers);
    var trace := Start(reg, config, env);
    assert trace == [HeaderRan(config[HeaderKey], c.name)] + f.events +
                    [ActionRan(c.action, Invocation(f.args, env.cwd, Classify(env.platform))),
                     FooterRan(config[FooterKey], c.name)];
    forall k | k in Keys(DeclaredInputs(c))
      ensures k in f.args
    {
      FillFrame(DeclaredInputs(c), parsed, env.answers, k);
    }
    if DistinctKeys(DeclaredInputs(c)) {
      forall n: nat | n < |DeclaredInputs(c)| && !Truthy(Lookup(parsed, DeclaredInputs(c)[n].optionArgument))
        ensures var key := DeclaredInputs(c)[n].optionArgument;
                var before := PromptCount(ExpectedAsks(DeclaredInputs(c)[..n], parsed));
                var i := DeclaredInputs(c)[n];
                && key in f.args
                && (Ask(i.question, i.kind, i.choices).None? ==> f.args[key] == Undefined)
                && (Ask(i.question, i.kind, i.choices).Some? ==> before < |env.answers| && f.args[key] == env.answers[before])
      {
        FillStoresAnswers(DeclaredInputs(c), parsed, env.answers, n);
      }
    }
  }

  /** The prompts `start` issues, when the declared inputs use different
      keys and every prompt is answered: one `ask` per input whose value was
      falsy after argument extraction, in declaration order. */
  lemma StartAsksMissingInputs(reg: seq<Command>, config: Config, env: Env)
    requires HasHooks(config)
    requires Resolve(reg, UserArgs(env.argv)).Some?
    requires var h := Resolve(reg, UserArgs(env.argv)).value;
             DistinctKeys(DeclaredInputs(reg[h.cmd])) &&
             !FillInputs(DeclaredInputs(reg[h.cmd]), Parse(UserArgs(env.argv)[h.len..]), env.answers).rejected
    ensures var h := Resolve(reg, UserArgs(env.argv)).value;
            var trace := Start(reg, config, env);
            |trace| >= 3 &&
            trace[1..|trace| - 2] == ExpectedAsks(DeclaredInputs(reg[h.cmd]), Parse(UserArgs(env.argv)[h.len..]))
  {
    var h := Resolve(reg, UserArgs(env.argv)).value;
    var c := reg[h.cmd];
    var parsed := Parse(UserArgs(env.argv)[h.len..]);
    var f := FillInputs(DeclaredInputs(c), parsed, env.answers);
    var trace := Start(reg, config, env);
    var inv := Invocation(f.args, env.cwd, Classify(env.platform));
    assert trace == [HeaderRan(config[HeaderKey], c.name)] + f.events +
                    [ActionEvent(c, inv, reg, config), FooterRan(config[FooterKey], c.name)];
    assert trace[1..|trace| - 2] == f.events;
    FillAsksFalsyInputs(DeclaredInputs(c), parsed, env.answers);
  }

  /** With no user arguments nothing matches: the trace is the not-found
      hook alone. */
  lemma NoArgumentsIsNotFound(reg: seq<Command>, config: Config, env: Env)
    requires HasHooks(config)
    requires |env.argv| <= 2
    ensures Start(reg, config, env) == [NotFoundRan(config[NotFoundKey])]
  {
    NoArgumentsNoMatch(reg);
  }

  /** `help` alone, in a registry whose only `help` entry is the built-in
      first one: header, then `onHelp` with the whole registry, then footer,
      with no prompt. */
  lemma StartHelp(reg: seq<Command>, config: Config, env: Env)
    requires HasHooks(config)
    requires |reg| >= 1 && reg[0] == HelpCommand
    requires forall k :: 1 <= k < |reg| ==> reg[k].name != HelpName
    requires UserArgs(env.argv) == [HelpName]
    ensures Start(reg, config, env) ==
              [HeaderRan(config[HeaderKey], HelpName), HelpRan(config[HelpKey], reg),
               FooterRan(config[FooterKey], HelpName)]
  {
    var args := [HelpName];
    assert args[..1] == args;
    assert IsHit(reg, args, Hit(0, 1));
    assert forall c: nat, len: nat :: IsHit(reg, args, Hit(c, len)) ==> c == 0 && len == 1;
    assert Resolve(reg, args) == Some(Hit(0, 1));
    assert FillInputs([], Parse(args[1..]), env.answers).events == [];
  }

  /** `--help` is not a command: unless some entry is named `--help`, it
      matches nothing and only the not-found hook runs. `onHelp` is reached
      only through the `help` entry. */
  lemma HelpFlagIsNotFound(reg: seq<Command>, config: Config, env: Env)
    requires HasHooks(config)
    requires UserArgs(env.argv) == ["--help"]
    requires forall k :: 0 <= k < |reg| ==> reg[k].name != "--help"
    ensures Start(reg, config, env) == [NotFoundRan(config[NotFoundKey])]
  {
    var args := ["--help"];
    assert args[..1] == args;
    assert forall c: nat, len: nat :: !IsHit(reg, args, Hit(c, len));
  }

  /** A matched dispatch whose fill completes is the header, the fill's
      `ask` calls, the action and the footer, in that order. */
  lemma DispatchCompletes(reg: seq<Command>, config: Config, c: Command, parsed: ArgMap, env: Env)
    requires HasHooks(config)
    requires !FillInputs(DeclaredInputs(c), parsed, env.answers).rejected
    ensures var f := FillInputs(DeclaredInputs(c), parsed, env.answers);
            Dispatch(reg, config, c, parsed, env) ==
              [HeaderRan(config[HeaderKey], c.name)] + f.events +
              [ActionEvent(c, Invocation(f.args, env.cwd, Classify(env.platform)), reg, config),
               FooterRan(config[FooterKey], c.name)]
  {
  }

  // The scaffolding CLI's registration, as concrete dispatches.

  const RootQuestion: string := "Please enter the folder where you want to create a new project"
  const RootInput: Input := Input(RootQuestion, "string", RootKey, None)
  const NewAction: Handler := UserHandler(0)

  function ScaffoldApp(): seq<Command> {
    Register(Initial(), "new", NewAction, Some([RootInput]), None)
  }

  /** `new --root myapp`: no prompt, the action sees `{root: "myapp"}`. */
  lemma NewWithRootFlag(cwd: string, platform: string, answers: seq<Value>)
    ensures var env := Env(["node", "cli.js", "new", "--root", "myapp"], platform, cwd, answers);
            Start(ScaffoldApp(), DefaultConfig(), env) ==
              [HeaderRan(DefaultHook, "new"),
               ActionRan(NewAction, Invocation(map[RootKey := Str("myapp")], cwd, Classify(platform))),
               FooterRan(DefaultHook, "new")]
  {
    var args := ["new", "--root", "myapp"];
    assert UserArgs(["node", "cli.js", "new", "--root", "myapp"]) == args;
    assert NameMatches("new", args, 1) by { assert args[..1] == ["new"]; }
    SingleWordName("new", args, 2);
    SingleWordName("new", args, 3);
    assert !NameMatches("help", args, 1) by { assert args[..1] == ["new"]; }
    SingleWordName("help", args, 2);
    SingleWordName("help", args, 3);
    assert Resolve(ScaffoldApp(), args) == Some(Hit(1, 1));
    assert args[1..] == ["--root", "myapp"];
    var parsed := map[RootKey := Str("myapp")];
    assert Parse(["--root", "myapp"]) == parsed;
    var c := ScaffoldApp()[1];
    assert DeclaredInputs(c) == [RootInput];
    assert FillInputs([RootInput], parsed, answers) == FillInputs([], parsed, answers);
    assert FillInputs([RootInput], parsed, answers) == Fill(parsed, [], answers, false);
    var env := Env(["node", "cli.js", "new", "--root", "myapp"], platform, cwd, answers);
    assert Start(ScaffoldApp(), DefaultConfig(), env) == Dispatch(ScaffoldApp(), DefaultConfig(), c, parsed, env);
    DispatchCompletes(ScaffoldApp(), DefaultConfig(), c, parsed, env);
  }

  /** `new` alone: exactly one text prompt for the folder, whose answer the
      action receives under `root`. */
  lemma NewPromptsForRoot(cwd: string, platform: string, answer: string)
    ensures var env := Env(["node", "cli.js", "new"], platform, cwd, [Str(answer)]);
            Start(ScaffoldApp(), DefaultConfig(), env) ==
              [HeaderRan(DefaultHook, "new"),
               Asked(RootInput, Some(Prompt(TextInput, RootQuestion, None))),
               ActionRan(NewAction, Invocation(map[RootKey := Str(answer)], cwd, Classify(platform))),
               FooterRan(DefaultHook, "new")]
  {
    var args := ["new"];
    assert UserArgs(["node", "cli.js", "new"]) == args;
    assert NameMatches("new", args, 1) by { assert args[..1] == ["new"]; }
    assert !NameMatches("help", args, 1) by { assert args[..1] == ["new"]; }
    assert Resolve(ScaffoldApp(), args) == Some(Hit(1, 1));
    assert args[1..] == [];
    assert Parse([]) == map[];
    var c := ScaffoldApp()[1];
    assert DeclaredInputs(c) == [RootInput];
    var p := Prompt(TextInput, RootQuestion, None);
    assert Ask(RootQuestion, "string", None) == Some(p);
    var filled := map[RootKey := Str(answer)];
    assert map[][RootKey := Str(answer)] == filled;
    assert FillInputs([RootInput], map[], [Str(answer)]).events == [Asked(RootInput, Some(p))] + FillInputs([], filled, []).events;
    assert FillInputs([RootInput], map[], [Str(answer)]) == Fill(filled, [Asked(RootInput, Some(p))], [], false);
    var env := Env(["node", "cli.js", "new"], platform, cwd, [Str(answer)]);
    assert Start(ScaffoldApp(), DefaultConfig(), env) == Dispatch(ScaffoldApp(), DefaultConfig(), c, map[], env);
    DispatchCompletes(ScaffoldApp(), DefaultConfig(), c, map[], env);
  }

  /** An unknown command runs only the not-found hook. */
  lemma UnknownCommandIsNotFound(cwd: string, platform: string, answers: seq<Value>)
    ensures Start(ScaffoldApp(), DefaultConfig(), Env(["node", "cli.js", "deploy"], platform, cwd, answers))
            == [NotFoundRan(DefaultHook)]
  {
    var args := ["deploy"];
    assert UserArgs(["node", "cli.js", "deploy"]) == args;
    assert !NameMatches("new", args, 1) by { assert args[..1] == ["deploy"]; }
    assert !NameMatches("help", args, 1) by { assert args[..1] == ["deploy"]; }
    assert Resolve(ScaffoldApp(), args) == None;
  }

  /** `new --root ""`: the empty value is consumed but falsy, so the folder
      is still asked for and the answer replaces it. */
  lemma NewWithEmptyRoot(cwd: string, platform: string, answer: string)
    ensures var env := Env(["node", "cli.js", "new", "--root", ""], platform, cwd, [Str(answer)]);
            Start(ScaffoldApp(), DefaultConfig(), env) ==
              [HeaderRan(DefaultHook, "new"),
               Asked(RootInput, Some(Prompt(TextInput, RootQuestion, None))),
               ActionRan(NewAction, Invocation(map[RootKey := Str(answer)], cwd, Classify(platform))),
               FooterRan(DefaultHook, "new")]
  {
    var args := ["new", "--root", ""];
    assert UserArgs(["node", "cli.js", "new", "--root", ""]) == args;
    assert NameMatches("new", args, 1) by { assert args[..1] == ["new"]; }
    SingleWordName("new", args, 2);
    SingleWordName("new", args, 3);
    assert !NameMatches("help", args, 1) by { assert args[..1] == ["new"]; }
    SingleWordName("help", args, 2);
    SingleWordName("help", args, 3);
    assert Resolve(ScaffoldApp(), args) == Some(Hit(1, 1));
    assert args[1..] == ["--root", ""];
    var parsed := map[RootKey := Str("")];
    assert Parse(["--root", ""]) == parsed;
    var c := ScaffoldApp()[1];
    assert DeclaredInputs(c) == [RootInput];
    var p := Prompt(TextInput, RootQuestion, None);
    var filled := map[RootKey := Str(answer)];
    assert parsed[RootKey := Str(answer)] == filled;
    assert FillInputs([RootInput], parsed, [Str(answer)]).events == [Asked(RootInput, Some(p))] + FillInputs([], filled, []).events;
    assert FillInputs([RootInput], parsed, [Str(answer)]) == Fill(filled, [Asked(RootInput, Some(p))], [], false);
    var env := Env(["node", "cli.js", "new", "--root", ""], platform, cwd, [Str(answer)]);
    assert Start(ScaffoldApp(), DefaultConfig(), env) == Dispatch(ScaffoldApp(), DefaultConfig(), c, parsed, env);
    DispatchCompletes(ScaffoldApp(), DefaultConfig(), c, parsed, env);
  }
}

=== FILE: matching.dfy ===
/** Command resolution in `start`: which registered command the user's
    arguments select, and which arguments are left over for it.

    The source walks every command in registration order and, inside, every
    prefix length in increasing order, and records every hit; the last hit
    recorded wins. `Resolve` states the same outcome as a search from the
    end, and `MatchCommand` is the nested loop itself. */
module Matching {
  import opened JsValues
  import opened Registry

  /** A hit: command `cmd` of the registry is named by the first `len`
      user arguments. */
  datatype Hit = Hit(cmd: nat, len: nat)

  /** `args.slice(0, len).join(" ") === name`, for a non-empty prefix. */
  predicate NameMatches(name: string, args: seq<string>, len: nat) {
    1 <= len <= |args| && Join(args[..len], " ") == name
  }

  predicate IsHit(cmds: seq<Command>, args: seq<string>, h: Hit) {
    h.cmd < |cmds| && NameMatches(cmds[h.cmd].name, args, h.len)
  }

  /** The longest prefix of at most `n` arguments that spells `name`. */
  function LongestMatch(name: string, args: seq<string>, n: nat): (r: Option<nat>)
    requires n <= |args|
    ensures r.Some? ==> r.value <= n && NameMatches(name, args, r.value)
    ensures r.Some? ==> forall len: nat :: r.value < len <= n ==> !NameMatches(name, args, len)
    ensures r.None? ==> forall len: nat :: len <= n ==> !NameMatches(name, args, len)
  {
    if n == 0 then None
    else if Join(args[..n], " ") == name then Some(n)
    else LongestMatch(name, args, n - 1)
  }

  /** The hit the source ends up with: the last command in registration
      order that has any hit, with its longest matching prefix. */
  function Resolve(cmds: seq<Command>, args: seq<string>): (r: Option<Hit>)
    ensures r.Some? ==> IsHit(cmds, args, r.value)
    ensures r.Some? ==> forall c: nat, len: nat :: IsHit(cmds, args, Hit(c, len)) ==>
                          c < r.value.cmd || (c == r.value.cmd && len <= r.value.len)
    ensures r.None? ==> forall c: nat, len: nat :: !IsHit(cmds, args, Hit(c, len))
  {
    if |cmds| == 0 then None
    else
      var last := |cmds| - 1;
      match LongestMatch(cmds[last].name, args, |args|)
      case Some(n) => Some(Hit(last, n))
      case None =>
        var r := Resolve(cmds[..last], args);
        assert forall c: nat, len: nat :: c < last ==>
          (IsHit(cmds, args, Hit(c, len)) <==> IsHit(cmds[..last], args, Hit(c, len)));
        r
  }

  /** The state of the source's loop variables for a given hit. */
  predicate Records(cmds: seq<Command>, args: seq<string>, hit: Option<Hit>,
                    matched: Option<Command>, rest: seq<string>)
  {
    match hit
    case None => matched == None && rest == []
    case Some(h) => h.cmd < |cmds| && h.len <= |args| &&
                    matched == Some(cmds[h.cmd]) && rest == args[h.len..]
  }

  /** The nested loops of `start` that set `commandMatched` and
      `commandArguments` (the latter without the index pairing, which the
      argument extraction adds back). */
  method MatchCommand(cmds: seq<Command>, args: seq<string>)
      returns (matched: Option<Command>, rest: seq<string>)
    ensures matched.None? <==> Resolve(cmds, args).None?
    ensures matched.None? ==> rest == []
    ensures Resolve(cmds, args).Some? ==>
              matched == Some(cmds[Resolve(cmds, args).value.cmd]) &&
              rest == args[Resolve(cmds, args).value.len..]
  {
    matched := None;
    rest := [];
    ghost var hit: Option<Hit> := None;
    var c := 0;
    while c < |cmds|
      invariant 0 <= c <= |cmds|
      invariant hit == Resolve(cmds[..c], args)
      invariant Records(cmds, args, hit, matched, rest)
    {
      var i := 0;
      while i < |args|
        invariant 0 <= i <= |args|
        invariant hit == match LongestMatch(cmds[c].name, args, i)
                         case Some(n) => Some(Hit(c, n))
                         case None => Resolve(cmds[..c], args)
        invariant Records(cmds, args, hit, matched, rest)
      {
        if Join(args[..i + 1], " ") == cmds[c].name {
          matched := Some(cmds[c]);
          rest := args[i + 1..];
          hit := Some(Hit(c, i + 1));
        }
        i := i + 1;
      }
      assert cmds[..c + 1][..c] == cmds[..c];
      assert cmds[..c + 1][c] == cmds[c];
      c := c + 1;
    }
    assert cmds[..c] == cmds;
  }

  /** A name without spaces can only be spelled by the first argument
      alone, since joining two or more arguments inserts a space. */
  lemma SingleWordName(name: string, args: seq<string>, len: nat)
    requires ' ' !in name
    ensures NameMatches(name, args, len) <==> len == 1 && |args| >= 1 && args[0] == name
  {
    if NameMatches(name, args, len) && len >= 2 {
      JoinShowsSeparator(args[..len], ' ');
      assert false;
    }
    if len == 1 && |args| >= 1 {
      assert args[..1] == [args[0]];
    }
  }

  /** A later-registered command that has any hit takes over from every
      earlier one, however long the earlier command's match was. */
  lemma LaterRegistrationWins(cmds: seq<Command>, args: seq<string>, early: Hit, late: Hit)
    requires IsHit(cmds, args, early) && IsHit(cmds, args, late)
    requires early.cmd < late.cmd
    ensures Resolve(cmds, args).Some?
    ensures Resolve(cmds, args).value.cmd >= late.cmd
  {
    assert IsHit(cmds, args, Hit(late.cmd, late.len));
  }

  /** Registering a command changes the resolution only when the new
      command is named by some prefix of the arguments, and then the new
      command wins with its longest such prefix. */
  lemma RegisterAndResolve(reg: seq<Command>, args: seq<string>, name: string, action: Handler,
                           inputs: Option<seq<Input>>, description: Option<string>)
    ensures var r := Resolve(Register(reg, name, action, inputs, description), args);
            match LongestMatch(name, args, |args|)
            case None => r == Resolve(reg, args)
            case Some(n) => r == Some(Hit(|reg|, n))
  {
    var grown := Register(reg, name, action, inputs, description);
    assert grown[..|reg|] == reg;
    assert grown[|reg|].name == name;
  }

  /** No user arguments, no command. */
  lemma NoArgumentsNoMatch(cmds: seq<Command>)
    ensures Resolve(cmds, []) == None
  {
  }

  /** `new project` is registered before `new`: for the arguments
      `new project` the shorter, later name wins and `project` is left over. */
  lemma LaterShorterNameWins()
    ensures var cmds := [HelpCommand, Command("new project", UserHandler(1), None, None),
                         Command("new", UserHandler(2), None, None)];
            Resolve(cmds, ["new", "project"]) == Some(Hit(2, 1))
  {
    var args := ["new", "project"];
    assert args[..1] == ["new"] && args[..2] == args;
    assert Join(args, " ") == "new project";
    assert NameMatches("new project", args, 2);
  }
}

=== FILE: platform.dfy ===
/** The operating-system family handed to command actions. */
module Platform {

  datatype Os = Mac | Linux | Windows | Unknown

  /** The host identifiers of the Unix-like systems reported as linux. */
  const LinuxLike: set<string> := {"aix", "freebsd", "linux", "openbsd", "sunos"}

  /** The switch on the host's platform identifier. */
  function Classify(platform: string): (os: Os)
    ensures os == Mac <==> platform == "darwin"
    ensures os == Linux <==> platform in LinuxLike
    ensures os == Windows <==> platform == "win32"
    ensures os == Unknown <==> platform != "darwin" && platform != "win32" && platform !in LinuxLike
  {
    match platform
    case "darwin" => Mac
    case "aix" => Linux
    case "freebsd" => Linux
    case "linux" => Linux
    case "openbsd" => Linux
    case "sunos" => Linux
    case "win32" => Windows
    case _ => Unknown
  }
}

=== FILE: prompts.dfy ===
/** `app.ask`: how a Lithium input type becomes a prompt of the interactive
    prompt library, or no prompt at all. */
module Prompts {
  import opened JsValues
  import opened Registry

  /** The prompt-library types `ask` can produce: "input", "number", "list". */
  datatype PromptKind = TextInput | NumberInput | ListInput

  /** One prompt handed to the prompt library. */
  datatype Prompt = Prompt(kind: PromptKind, message: string, choices: Option<seq<Choice>>)

  /** The two options a boolean input always offers. */
  const YesNo: seq<Choice> := [Choice("Yes", Bool(true)), Choice("No", Bool(false))]

  /** The Lithium input types `ask` renders a prompt for. "password" is not
      one of them: its case has no `break` and falls into `default`. */
  const PromptedKinds: set<string> := {"string", "number", "boolean", "choices"}

  /** The type switch of `ask`. `None` means `ask` returns `undefined`
      without showing anything. */
  function Ask(question: string, kind: string, options: Option<seq<Choice>>): (r: Option<Prompt>)
    ensures r.None? <==> kind !in PromptedKinds
    ensures r.Some? ==> r.value.message == question
    ensures kind == "string" ==> r == Some(Prompt(TextInput, question, options))
    ensures kind == "number" ==> r == Some(Prompt(NumberInput, question, options))
    ensures kind == "boolean" ==> r == Some(Prompt(ListInput, question, Some(YesNo)))
    ensures kind == "choices" ==> r == Some(Prompt(ListInput, question, options))
  {
    match kind
    case "string" => Some(Prompt(TextInput, question, options))
    case "number" => Some(Prompt(NumberInput, question, options))
    case "boolean" => Some(Prompt(ListInput, question, Some(YesNo)))
    case "choices" => Some(Prompt(ListInput, question, options))
    case _ => None
  }

  /** A password input shows no prompt, whatever its question and options. */
  lemma PasswordShowsNoPrompt(question: string, options: Option<seq<Choice>>)
    ensures Ask(question, "password", options) == None
  {
  }

  /** A boolean prompt ignores the options it was given. */
  lemma BooleanIgnoresOptions(question: string, o1: Option<seq<Choice>>, o2: Option<seq<Choice>>)
    ensures Ask(question, "boolean", o1) == Ask(question, "boolean", o2)
    ensures Ask(question, "boolean", o1).value.choices.value[0].value == Bool(true)
  {
  }

  /** Only the two list-producing types produce a list prompt. */
  lemma ListPromptKinds(question: string, kind: string, options: Option<seq<Choice>>)
    ensures (Ask(question, kind, options).Some? && Ask(question, kind, options).value.kind == ListInput)
            <==> kind == "boolean" || kind == "choices"
  {
  }
}

=== FILE: registry.dfy ===
/** The command registry of a Lithium app: the ordered list of command
    definitions, the operations that grow it (`command`, `import`), the one
    that hands it out (`export`), and the text the default help hook prints. */
module Registry {
  import opened JsValues

  /** One entry of a `choices` prompt: a display name and the value the
      prompt resolves to when it is picked. */
  datatype Choice = Choice(name: string, value: Value)

  /** A declared input: the question to ask, the Lithium input type (any
      string; the documented ones are string, number, boolean, choices and
      password), the argument key the answer is stored under, and the
      options of a `choices` input. */
  datatype Input = Input(question: string, kind: string, optionArgument: string,
                         choices: Option<seq<Choice>>)

  /** The action of a command, identified rather than executed. `ShowHelp`
      is the built-in help action, which hands the registry to the
      configured `onHelp` hook; `UserHandler` is any action a caller passed. */
  datatype Handler = ShowHelp | UserHandler(id: nat)

  /** A registered command. The name may hold several space-separated
      words; description and inputs may be left out by the caller. */
  datatype Command = Command(name: string, action: Handler,
                             description: Option<string>, inputs: Option<seq<Input>>)

  const HelpName: string := "help"

  /** The description the built-in help entry is registered with. */
  const HelpDescription: string := "Shows a list of all commands"

  /** The entry every app starts with. */
  const HelpCommand: Command := Command(HelpName, ShowHelp, Some(HelpDescription), None)

  /** The registry of a freshly created app: only the help entry. */
  function Initial(): (reg: seq<Command>)
    ensures |reg| == 1 && reg[0].name == HelpName && reg[0].action == ShowHelp
    ensures reg[0].description == Some("Shows a list of all commands") && reg[0].inputs == None
  {
    [HelpCommand]
  }

  /** `app.command(name, action, inputs, description)`: appends one entry. */
  function Register(reg: seq<Command>, name: string, action: Handler,
                    inputs: Option<seq<Input>>, description: Option<string>): (r: seq<Command>)
    ensures |r| == |reg| + 1
    ensures r[..|reg|] == reg
    ensures r[|reg|].name == name && r[|reg|].action == action
    ensures r[|reg|].description == description && r[|reg|].inputs == inputs
  {
    reg + [Command(name, action, description, inputs)]
  }

  /** `app.export()`: the current list, in registration order. */
  function Export(reg: seq<Command>): (r: seq<Command>)
    ensures r == reg
  {
    reg
  }

  /** The entries of `file` that `app.import` keeps: all but those named help. */
  function Importable(file: seq<Command>): (r: seq<Command>)
    ensures |r| <= |file|
    ensures forall c :: multiset(r)[c] == if c.name == HelpName then 0 else multiset(file)[c]
  {
    if |file| == 0 then []
    else
      var rest := Importable(file[1..]);
      assert file == [file[0]] + file[1..];
      if file[0].name == HelpName then rest else [file[0]] + rest
  }

  /** `app.import(fileCommands)`: appends the importable entries of `file`. */
  function Import(reg: seq<Command>, file: seq<Command>): (r: seq<Command>)
    ensures |reg| <= |r| <= |reg| + |file|
    ensures r[..|reg|] == reg
    ensures forall k :: |reg| <= k < |r| ==> r[k] in file && r[k].name != HelpName
    ensures forall c :: c in file && c.name != HelpName ==> c in r[|reg|..]
    ensures r[|reg|..] == Importable(file)
  {
    var kept := Importable(file);
    assert forall c :: c in kept <==> multiset(kept)[c] > 0;
    assert forall c :: c in file <==> multiset(file)[c] > 0;
    var r := reg + kept;
    assert r[|reg|..] == kept;
    r
  }

  /** Filtering commutes with concatenation, so the kept entries appear in
      the order they had in `file`. */
  lemma {:induction false} ImportableAppend(a: seq<Command>, b: seq<Command>)
    ensures Importable(a + b) == Importable(a) + Importable(b)
    decreases |a|
  {
    if |a| == 0 {
      assert a + b == b;
    } else {
      assert (a + b)[1..] == a[1..] + b;
      ImportableAppend(a[1..], b);
    }
  }

  /** A file without help entries is imported whole and in order. */
  lemma {:induction false} ImportableKeepsNonHelp(file: seq<Command>)
    requires forall k :: 0 <= k < |file| ==> file[k].name != HelpName
    ensures Importable(file) == file
    decreases |file|
  {
    if |file| > 0 {
      ImportableKeepsNonHelp(file[1..]);
    }
  }

  /** Importing the export of another app whose only help entry is its
      built-in first one appends that app's own commands, in order. */
  lemma ImportExportedApp(reg: seq<Command>, other: seq<Command>)
    requires |other| >= 1 && other[0] == HelpCommand
    requires forall k :: 1 <= k < |other| ==> other[k].name != HelpName
    ensures Import(reg, Export(other)) == reg + other[1..]
  {
    assert other == [other[0]] + other[1..];
    ImportableAppend([other[0]], other[1..]);
    ImportableKeepsNonHelp(other[1..]);
  }

  /** Registering a command and then exporting the registry hands back an
      entry with the same name, description, inputs and action. */
  lemma RegisterThenExport(reg: seq<Command>, name: string, action: Handler,
                           inputs: Option<seq<Input>>, description: Option<string>)
    ensures var out := Export(Register(reg, name, action, inputs, description));
      |out| == |reg| + 1 && out[..|reg|] == reg &&
      out[|reg|] == Command(name, action, description, inputs)
  {
  }

  /** One line of the default help output. */
  function HelpLine(c: Command): string {
    c.name + ": " + (match c.description case Some(d) => d case None => "") + "\n"
  }

  /** The default help text: one line per command, in registry order. */
  function HelpText(cmds: seq<Command>): string {
    if |cmds| == 0 then "" else HelpLine(cmds[0]) + HelpText(cmds[1..])
  }

  /** The help text of a concatenation is the concatenation of help texts. */
  lemma {:induction false} HelpTextAppend(a: seq<Command>, b: seq<Command>)
    ensures HelpText(a + b) == HelpText(a) + HelpText(b)
    decreases |a|
  {
    if |a| == 0 {
      assert a + b == b;
    } else {
      assert (a + b)[1..] == a[1..] + b;
      HelpTextAppend(a[1..], b);
    }
  }

  /** Registering a command adds exactly its line at the end of the help text. */
  lemma HelpTextOfRegister(reg: seq<Command>, name: string, action: Handler,
                           inputs: Option<seq<Input>>, description: Option<string>)
    ensures HelpText(Register(reg, name, action, inputs, description))
         == HelpText(reg) + name + ": " + (match description case Some(d) => d case None => "") + "\n"
  {
    var c := Command(name, action, description, inputs);
    HelpTextAppend(reg, [c]);
    assert HelpText([c]) == HelpLine(c) + HelpText([]);
  }

  /** The default `onHelp` loop: appends one line per command to an
      initially empty string. */
  method BuildHelpText(cmds: seq<Command>) returns (helpString: string)
    ensures helpString == HelpText(cmds)
  {
    helpString := "";
    var k := 0;
    while k < |cmds|
      invariant 0 <= k <= |cmds|
      invariant helpString == HelpText(cmds[..k])
    {
      HelpTextAppend(cmds[..k], [cmds[k]]);
      assert HelpText([cmds[k]]) == HelpLine(cmds[k]);
      assert cmds[..k + 1] == cmds[..k] + [cmds[k]];
      helpString := helpString + HelpLine(cmds[k]);
      k := k + 1;
    }
    assert cmds[..k] == cmds;
  }

  /** The help output of a fresh app is the single help line. */
  lemma InitialHelpText()
    ensures HelpText(Initial()) == HelpName + ": " + HelpDescription + "\n"
  {
    assert [HelpCommand][1..] == [];
  }
}

=== FILE: values.dfy ===
/** JavaScript-level values and the small string helpers the Lithium model
    shares: optional values, the values an argument object can hold, their
    truthiness, `Array.prototype.join` and the `"--"` prefix test. */
module JsValues {

  /** A value that may be `undefined`/`null` in the source. */
  datatype Option<+T> = None | Some(value: T)

  /** The values that can end up in a command's argument object. A flag
      without a value holds `true`; a prompt answer can be any of these; a
      prompt that was never shown leaves `undefined` behind. */
  datatype Value = Str(s: string) | Bool(b: bool) | Num(n: int) | Undefined

  /** JavaScript truthiness of the values above: `""`, `false`, `0` and
      `undefined` are falsy, everything else is truthy. */
  predicate Truthy(v: Value) {
    match v
    case Str(s) => s != ""
    case Bool(b) => b
    case Num(n) => n != 0
    case Undefined => false
  }

  /** A plain JavaScript object used as a dictionary. */
  type ArgMap = map<string, Value>

  /** `obj[key]`: a property that is not there reads as `undefined`. */
  function Lookup(m: ArgMap, key: string): Value {
    if key in m then m[key] else Undefined
  }

  /** `s.startsWith("--")`. */
  predicate IsOption(s: string) {
    |s| >= 2 && s[0] == '-' && s[1] == '-'
  }

  /** `s.slice(2)` on an option token: its name without the dashes. */
  function OptionName(s: string): (name: string)
    requires IsOption(s)
    ensures "--" + name == s
  {
    s[2..]
  }

  /** `parts.join(sep)` on an array of strings. */
  function Join(parts: seq<string>, sep: string): string {
    if |parts| == 0 then ""
    else if |parts| == 1 then parts[0]
    else parts[0] + sep + Join(parts[1..], sep)
  }

  /** Joining two or more parts always puts the separator into the result. */
  lemma {:induction false} JoinShowsSeparator(parts: seq<string>, c: char)
    requires |parts| >= 2
    ensures c in Join(parts, [c])
  {
    var j := Join(parts, [c]);
    assert j == parts[0] + [c] + Join(parts[1..], [c]);
    assert j[|parts[0]|] == c;
  }
}
